=== FILE: README.md ===
# Stores API — a Dafny model of its domain rules

The stores API is a small Flask REST service that manages stores, items, tags and users. It issues
JWT access and refresh tokens and gates admin-only handlers on an `is_admin` claim. This project
models the service as a state machine over an immutable database value. The state `Models.Db`
holds:

- the four tables, each a map from primary key to row;
- the `items_tags` join table, as a set of (item id, tag id) pairs;
- the revocation set of token ids (`BLOCKLIST`).

Each HTTP handler is a pure function. It returns either `Done(newState, responseBody)` or a
`Failure`. A `Failure` is one of:

- `Api(ApiError(code, status, message, detail))`: what `ApiErrorException` carries;
- `NotFound`: the abort raised by `get_or_404`;
- `Unhandled`: a Python exception nobody catches, answered with 500;
- `SchemaRejected`: marshmallow's error keys;
- `TokenRejected`: a refusal by `jwt_required`.

Modules follow the source files:

| module | models |
|---|---|
| `Schemas` | `schemas.py`: request bodies, the load schemas and their validators |
| `Models` | the `models` package: rows, the state, primary-key allocation, the link relation and its inverse, and the table constraints as `Wf` |
| `Tokens` | the parts of the JWT library the routes rely on: minted tokens and the `jwt_required` gate |
| `Items`, `Tags`, `Stores`, `Users` | the handlers in `resources/` |
| `Decorators` | `admin_required` |
| `Invariants` | every committed request keeps `Wf` |

Behaviours of the code that are reproduced rather than corrected:

- The database does not check that a store exists. SQLite leaves foreign keys unenforced by
  default, and neither item creation nor tag creation looks the store up. Items and tags may
  therefore name a missing store.
- `ItemModel(**item_data)` fails with a `TypeError` (500) when the body carries the optional
  `description` key, because the item table has no such column. This happens in POST `/items`
  and in the create path of PUT. The update path of PUT ignores `description`.
- PUT on a missing id builds a new row from the body alone. The row gets a fresh id, not the id
  in the path, and no per-store name check runs. Without `store_id`, the NOT NULL constraint fails
  and the handler reports 422 "Item name already in use".
- Unlinking a tag that is not linked makes `list.remove` raise `ValueError`, which is unhandled.
- Linking an item and a tag of different stores fails with 422. Nothing is committed, so the
  state is unchanged.
- A failed registration echoes the whole request body, the plaintext password included, in the
  error detail.
- Item and tag names have no unique constraint in the tables. Both checks are made only by the
  handlers. Tag names stay unique per store because only the tag POST handler creates tags. Item
  names do not stay unique, and PUT breaks them on both of its paths: the create path runs no
  name check (`Invariants.PutCreateBreaksUniqueItemNames`), and the update path as written
  accepts a rename onto an item with a higher id (see "## Findings",
  `Items.PutAsWrittenMissesLaterClash`). Only the corrected update path, `Items.Put`, keeps them.

Row order and ids follow the default SQLite backend:

- `.first()` and `.all()` without `ORDER BY` yield rows in rowid (id) order;
- a new row receives one more than the largest id in the table, or 1 if the table is empty
  (SQLite's rowid allocation).

## Model

| member | source | states |
|---|---|---|
| Schemas.LoadItem | schemas.py:6-38 | ItemSchema accepts a body exactly when it has no `id` or undeclared key, has a name of at least 3 characters, a price of at least 0.01 and a store_id. On success the loaded payload re-encodes to the same body. A supplied `id` is always refused. |
| Schemas.LoadItemUpdate | schemas.py:49-54 | ItemUpdateSchema requires a name (at least 3 characters) and a price (at least 0.01). `store_id` and `description` are optional, and `id` is refused. |
| Schemas.LoadStore | schemas.py:15-30 | StoreSchema accepts exactly a body holding only a name of at least 3 characters. `id` is dump-only and refused. |
| Schemas.LoadTag | schemas.py:21-24 | PlainTagSchema accepts exactly a body holding only a name of at least 3 characters. |
| Schemas.LoadUser | schemas.py:64-69 | UserSchema requires a username of at least 3 and a password of at least 8 characters. `id` is refused. |
| Schemas.LoadRoundTrips | schemas.py:6-69 | Every payload meeting its schema's validators loads back unchanged from its own body. |
| Models.NextId | models/item.py:10 | A new primary key is absent from the table and above every existing key. It is 1 in an empty table and otherwise one more than the largest key. |
| Models.TagsOfInvertsItemsOf | models/tag.py:14-15 | `tag.items` and `item.tags` read the same join table, so a tag is among an item's tags exactly when the item is among the tag's items. |
| Models.Empty | app.py:38-39 | A freshly created database satisfies every table constraint and every handler-kept rule. |
| Tokens.JwtRequired | resources/users.py:101-122 | The gate passes a token exactly when one is presented and it is of the required kind (and fresh, where freshness is required). A missing token and each wrong kind are refused with distinct reasons. |
| Tokens.MintedTokensMeetTheirGates | resources/users.py:85-86 | A fresh access token passes every access gate. A non-fresh one fails only the fresh gate. A refresh token passes only the refresh gate: it is refused by both access gates, the fresh one of account deletion included. A non-fresh access token is refused by the refresh gate. |
| Items.ValidateItemName | resources/items.py:101-116 | The check passes exactly when the store has no item with the name, or when the item being updated is the match with the lowest id (the row `.first()` returns). Otherwise it raises 422 "Item name already in use for store". |
| Items.ValidateOnCreate | resources/items.py:101-107 | With no item under update, the check fails exactly when the store already holds an item with the name. |
| Items.ValidateExemptsCurrent | resources/items.py:107 | If the only same-name item in the store is the item under update, the check passes. |
| Items.ValidateIgnoresOtherStores | resources/items.py:103-105 | Adding an item of another store never changes the outcome: the same name in a different store is no conflict. |
| Items.GetItems | resources/items.py:19-21 | Returns every item exactly once, in id order. |
| Items.PostItem | resources/items.py:25-34 | Fails with the constructor's TypeError when a description is sent, and otherwise with 422 when the store already has the name. On success it adds exactly one item, with a fresh id and the payload's fields, and changes nothing else. |
| Items.GetItem | resources/items.py:56-59 | Returns the stored item or 404. |
| Items.PutCreate | resources/items.py:71-84 | PUT on a missing id: a TypeError when a description is sent; 422 "Item name already in use" when store_id is missing. Otherwise one new item with a fresh id (not the path id), with no name check. |
| Items.PutAsWritten | resources/items.py:63-77 | The update path as written. Any failure is 422 "Item name already in use for store". On success only the name and price of the item change, and the rest of the state stays as it was. |
| Items.PutAsWrittenAccepts | resources/items.py:67-70 | The update path as written accepts a rename exactly when every other same-store item with the new name has a higher id. |
| Items.PutAsWrittenMissesLaterClash | resources/items.py:67-70 | A concrete state in which the rename is accepted and leaves two items of one store with the same name. The corrected handler refuses the same request. |
| Items.Put | resources/items.py:63-77 | Corrected update path (see "## Findings"); the code as written is `Items.PutAsWritten`. An existing item is renamed and repriced, keeping its id and store even when the payload carries a store_id. The request is refused with 422, committing nothing, exactly when another item of its store has the new name. A missing id behaves as PutCreate. |
| Items.GetItemAfterWrites | resources/items.py:25-98 | GET `/items/<id>` reads back exactly what the writes left: the created item under its new id, the updated item under its own id (the new id for the create path of PUT), for the update path as written and for the corrected one alike, 404 for a deleted item, and every other id unchanged. |
| Items.DeleteItem | resources/items.py:94-98 | Removes exactly that item and its links, or yields 404. |
| Tags.GetStoreTags | resources/tags.py:18-22 | 404 for a missing store. Otherwise exactly the tags whose store_id is the store, in id order. |
| Tags.PostTag | resources/tags.py:26-45 | Fails with 422 "Tag name already in use for store" exactly when that store has a tag with the name. Otherwise it adds one tag with a fresh id whose store comes from the path. |
| Tags.GetTag | resources/tags.py:67-70 | Returns the stored tag or 404. |
| Tags.DeleteTag | resources/tags.py:78-90 | 404 for a missing tag. 422 "Cannot delete tag. Tag is in use by items" while any item is linked to it. Otherwise it removes exactly the tag. |
| Tags.LinkedTagSurvivesDelete | resources/tags.py:80-87 | A tag linked to some item is never deleted. |
| Tags.GetTagAfterWrites | resources/tags.py:26-90 | GET `/tags/<id>` reads back the created tag under its new id and 404 for a deleted tag; every other id reads as before. |
| Tags.LinkTag | resources/tags.py:98-114 | 404 for a missing item or tag. 422 with the state unchanged for different stores. Otherwise the pair is added, so the tag is among the item's tags and the item among the tag's items. |
| Tags.UnlinkTag | resources/tags.py:124-132 | 404 for a missing item or tag, and an unhandled ValueError for a pair that is not linked. Otherwise exactly that pair is removed, from both sides of the relation. |
| Tags.UnlinkUndoesLink | resources/tags.py:102-128 | Unlinking right after linking a new pair restores the original state. |
| Stores.GetStores | resources/stores.py:19-21 | Returns every store exactly once, in id order. |
| Stores.PostStore | resources/stores.py:25-45 | Fails with 422 "Store name already in use" exactly when the name is taken. Otherwise it adds exactly one store, with a fresh id, and returns it. |
| Stores.GetStore | resources/stores.py:53-56 | Returns the stored store or 404. |
| Stores.GetStoreAfterWrites | resources/stores.py:25-63 | GET `/stores/<id>` reads back the created store under its new id and 404 for a deleted store; every other id reads as before. |
| Stores.DeleteStore | resources/stores.py:59-63 | 404 for a missing store. Otherwise the store is removed together with exactly its items and tags and their links; all other rows, users and revoked ids are untouched. |
| Users.Dump | schemas.py:64-69 | A user's response holds its id and username; the password is load-only and has no field in it. |
| Users.Register | resources/users.py:29-47 | Fails with 422 "username already in use" exactly when the username is taken. Otherwise it adds one user with a fresh id, whose stored password is the hash of the submitted one. |
| Users.DuplicateRegistrationEchoesPassword | resources/users.py:41-47 | The duplicate-username error detail carries the submitted plaintext password. |
| Users.Login | resources/users.py:78-94 | Success means a user with the username exists and the password verifies against its hash. The result is then a fresh access token and a refresh token, both for that user's id. If no such user's hash verifies, the answer is 403 "Invalid username/password combination" with empty detail. |
| Users.LoginSucceedsIff | resources/users.py:80-84 | With unique usernames, login succeeds exactly when a user with the username exists and the password verifies. |
| Users.RegisterThenLogin | resources/users.py:80-87 | After a successful registration, logging in with the same credentials yields tokens for the new user's id, provided that a password verifies against its own hash. |
| Users.Logout | resources/users.py:101-106 | Needs an access token; adds its jti to the revocation set and changes nothing else. |
| Users.TokenRefresh | resources/users.py:113-122 | Needs a refresh token. Returns a non-fresh access token for the same identity and adds the refresh token's jti to the revocation set, changing nothing else. |
| Users.RefreshedTokenCannotDeleteUser | resources/users.py:62-118 | An access token obtained by refreshing is refused by the fresh-only account deletion. |
| Users.LoginRefreshRevokesItself | resources/users.py:119-121 | The refresh token from a login is accepted, and its jti is added to the revocation set by that use. |
| Users.DeleteUser | resources/users.py:62-69 | Needs a fresh access token. Removes exactly the user the token names, or yields 404. |
| Users.GetUser | resources/users.py:129-133 | Returns the user's id and username, or 404. |
| Users.GetUserAfterWrites | resources/users.py:29-133 | After registration the new id reads back as the registered username (the view has no password); after account deletion the token's id reads 404; every other id reads as before. |
| Decorators.AdminRequired | resources/decorators.py:7-28 | A token refused by `jwt_required()` gets that refusal. A missing or falsy `is_admin` claim gets 403 "Forbidden"/"Admin privilege required" with empty detail and the handler is not called. Otherwise the handler's result for the same arguments is returned unchanged. |
| Decorators.FalsyClaimsAreRefused | resources/decorators.py:16-23 | A missing claim, null, false, 0, 0.0, "", [] and {} are all refused. |
| Decorators.TruthyClaimsAdmit | resources/decorators.py:16-26 | Every truthy `is_admin` value admits an access token: a non-zero number, a non-empty string, and a non-empty list or object whatever it holds. The handler's own result is returned. |
| Decorators.GateReadsOnlyClaims | resources/decorators.py:13-16 | The gate's verdict depends only on the token's kind and claims; it takes no state. |
| Invariants.PostItemKeepsInvariants | resources/items.py:25-34 | Creating an item keeps every table constraint and keeps item names unique per store. |
| Invariants.PutAsWrittenKeepsInvariants | resources/items.py:63-84 | PUT as written keeps every table constraint. Per-store item-name uniqueness is not among them and is not kept. |
| Invariants.PutKeepsInvariants | resources/items.py:63-77 | Corrected update path (see "## Findings"): keeps every table constraint, and on an existing item keeps item names unique per store. |
| Invariants.PutCreateDuplicatesName | resources/items.py:64-76 | For every state and payload: if the id is missing, the payload has a store_id and no description, and that store already has an item with the payload's name, then PUT as written commits, and the store ends with two items of that name. |
| Invariants.PutCreateBreaksUniqueItemNames | resources/items.py:71-72 | From a state with unique item names, PUT as written on a missing id adds a second "Pen" to the same store (with id 2, not the path id 99). |
| Invariants.DeleteItemKeepsInvariants | resources/items.py:94-98 | Deleting an item keeps every constraint, and the join table never points at a deleted item. |
| Invariants.PostTagKeepsInvariants | resources/tags.py:30-40 | Creating a tag keeps tag names unique per store and every other constraint. |
| Invariants.DeleteTagKeepsInvariants | resources/tags.py:80-90 | Deleting a tag keeps every constraint; no link is left dangling. |
| Invariants.LinkKeepsInvariants | resources/tags.py:102-110 | Linking keeps every link within one store. |
| Invariants.UnlinkKeepsInvariants | resources/tags.py:126-128 | Unlinking keeps every constraint. |
| Invariants.PostStoreKeepsInvariants | models/store.py:11 | Creating a store keeps store names unique. |
| Invariants.DeleteStoreKeepsInvariants | models/store.py:13-17 | The delete cascade leaves no item, tag or link behind that refers to the store's deleted rows, and keeps every constraint. |
| Invariants.RegisterKeepsInvariants | models/user.py:11 | Registration keeps usernames unique. |
| Invariants.TokenRoutesKeepInvariants | resources/users.py:62-122 | Logout, refresh and account deletion keep every constraint. |

## Findings

| source | as written | input that shows it | evidently intended | confidence | as-written member | corrected member |
|---|---|---|---|---|---|---|
| resources/items.py:67-70 | The new name is assigned to the loaded row before `validate_item_name` queries. The session flushes pending changes before a query, so the query sees the row under its new name. `.first()` then returns the row itself whenever its id is the lowest match, and the clash passes. | Items 1 "Pen" and 2 "Cup" in store 7; PUT `/items/1` with name "Cup" (`Items.PutAsWrittenMissesLaterClash`) | The rename is refused with 422 "Item name already in use for store" | medium; not executed (rests on the session's default autoflush and SQLite's rowid scan order) | Items.PutAsWritten | Items.Put |

## Left out

- Password hashing (pbkdf2 with a random salt) is foreign code. `Users.Hasher` supplies `hash` and `verify` as parameters. The only assumption, where one is needed, is that a password verifies against its own hash.
- Token signing, decoding and expiry belong to the JWT library. A token is modelled as its record of claims. Token ids are random and are passed in by the caller.
- Users.TokenRefresh: accepts a refresh token whose jti is already in the revocation set, so a second use of the same refresh token succeeds in the model. Refusing it rests on the revocation lookup described in the next line.
- Tokens.JwtRequired: does not reject expired, badly signed or revoked tokens. Signature and expiry checks are library code. The revocation lookup is registered in a file that is not part of this model, so revocation is modelled only as the growth of the revocation set.
- A JSON float claim is modelled as an exact real number; float rounding is not modelled. Claim values otherwise cover every JSON kind: null, booleans, integers, strings, arrays and objects.
- The claims loader that would add `is_admin` is not part of this model. `Tokens.Issuer` supplies the claims as a parameter, and no rule about which identity is an admin is asserted.
- The application factory registers only the item, store and tag blueprints. The user routes are modelled as handlers all the same.
- `price` is a float column with `Range(min=0.01)`. It is modelled as a real number compared exactly; float rounding is not modelled.
- Storage failures (`SQLAlchemyError` turned into 500, and the `IntegrityError` branch of POST `/items` and of the tag POST, which no constraint can trigger) are not modelled. Neither are the `"error": str(e)` entries of those details, which hold the driver's message.
- `String(80)` column widths are not enforced by SQLite and are not modelled.
- Marshmallow type coercion (a number where a string is expected, and so on) is not modelled: body fields are already typed. The store routes take the id as a string path segment; it is modelled as an integer.
- The join table has its own primary key, so linking an already-linked pair could add a second row. Links are modelled as a set, and relinking is a no-op.
- Success bodies are the rows the handlers return, not the response schemas' output. ItemSchema's dump drops the load-only `store_id` and nests `store` and `tags`; StoreSchema nests `items` and `tags`; TagSchema nests `store` and `items`. Only the user view (`Users.Dump`) models a schema's output.
- Rendering of errors into JSON responses is not modelled. The tag-in-use detail (resources/tags.py:86) holds the `TagModel` object itself, which Flask's default JSON provider cannot serialise, so a client would receive a 500 rather than the 422 body. The model returns the 422 error the handler raises; the state is unchanged either way.
- Concurrency (the unsynchronised revocation set and the check-then-insert races of the name checks) is not modelled.
- Debug prints and routing/OpenAPI decorators are not modelled.

=== FILE: decorators.dfy ===
/** The `admin_required` decorator (resources/decorators.py): `jwt_required()` first, then the
    `is_admin` claim, then the wrapped handler with its own arguments. */
module Decorators {
  import opened Wrappers
  import opened Exceptions
  import opened Tokens

  const AdminPrivilegeRequired: Failure := Api(ApiError(403, "Forbidden", "Admin privilege required", NoDetail))

  /** The wrapped handler, applied to the request's arguments, behind the admin gate. */
  function AdminRequired<A, R>(handler: A -> Result<R, Failure>, presented: Option<Token>, args: A)
    : (r: Result<R, Failure>)
    ensures JwtRequired(presented, AnyAccess).Err? ==> r == Err(JwtRequired(presented, AnyAccess).error)
    ensures JwtRequired(presented, AnyAccess).Ok? && !IsAdmin(presented.value.claims)
      ==> r == Err(AdminPrivilegeRequired)
    ensures JwtRequired(presented, AnyAccess).Ok? && IsAdmin(presented.value.claims) ==> r == handler(args)
  {
    var token :- JwtRequired(presented, AnyAccess);
    if !IsAdmin(token.claims) then Err(AdminPrivilegeRequired) else handler(args)
  }

  /** Falsy claim values are refused just like a missing claim. */
  lemma FalsyClaimsAreRefused<A, R>(handler: A -> Result<R, Failure>, t: Token, args: A, v: Json)
    requires t.kind == Access
    requires v in {JNull, JBool(false), JInt(0), JFloat(0.0), JStr(""), JArray([]), JObject(map[])}
    ensures AdminRequired(handler, Some(t.(claims := t.claims - {"is_admin"})), args) == Err(AdminPrivilegeRequired)
    ensures AdminRequired(handler, Some(t.(claims := t.claims["is_admin" := v])), args) == Err(AdminPrivilegeRequired)
  {
  }

  /** The gate reads nothing of the token but its kind and its claims: two access tokens with
      the same claims are treated alike, whoever they name and however old they are. */
  lemma GateReadsOnlyClaims<A, R>(handler: A -> Result<R, Failure>, t1: Token, t2: Token, args: A)
    requires t1.kind == Access && t2.kind == Access && t1.claims == t2.claims
    ensures AdminRequired(handler, Some(t1), args) == AdminRequired(handler, Some(t2), args)
  {
  }

  /** Every truthy claim value admits: a non-zero number, a non-empty string, and a non-empty
      list or object whatever it holds. A container is judged by its size, not its contents. */
  lemma TruthyClaimsAdmit<A, R>(handler: A -> Result<R, Failure>, t: Token, args: A, v: Json)
    requires t.kind == Access && Truthy(v)
    ensures AdminRequired(handler, Some(t.(claims := t.claims["is_admin" := v])), args) == handler(args)
  {
  }
}

=== FILE: exceptions.dfy ===
/** The ways a request can end without success.

    `ApiError` mirrors the record an ApiErrorException carries (code, status,
    message, detail); the other `Failure` alternatives are raised by the web
    framework or by Python itself rather than by the handlers. */
module Exceptions {

  /** The `detail` payload of each ApiErrorException the handlers raise.
      The `"error": str(e)` entries of the storage-error details carry the
      database driver's message, which is not modelled. */
  datatype Detail =
    | NoDetail                                     // {}
    | ItemNameDetail(itemName: string)             // {"item_name": ...}
    | ItemPayloadDetail(name: string, price: real) // {"item": item_data, ...}
    | TagPayloadDetail(tagName: string)            // {"tag": tag_data}
    | TagDetail(tagId: int)                        // {"tag": tag}
    | LinkDetail(itemId: int, tagId: int)          // {"item_id": ..., "tag_id": ...}
    | StorePayloadDetail(storeName: string)        // {"store": store_data, ...}
    | UserPayloadDetail(username: string, password: string) // {"user": user_data, ...}

  datatype ApiError = ApiError(code: int, status: string, message: string, detail: Detail)

  /** A Python exception nobody catches; the framework answers 500. */
  datatype Crash =
    | InvalidKeyword(keyword: string)  // TypeError from a model constructor
    | NotInList                        // ValueError from list.remove

  /** Why `jwt_required` turned a request away before the handler ran. */
  datatype Rejection =
    | NoToken               // no token presented
    | OnlyAccessAllowed     // a refresh token on an access-token route
    | OnlyRefreshAllowed    // an access token on the refresh route
    | FreshRequired         // a non-fresh access token on a fresh-only route

  datatype Failure =
    | Api(error: ApiError)                 // ApiErrorException raised by a handler
    | NotFound                             // abort(404) from get_or_404
    | Unhandled(crash: Crash)              // uncaught exception, HTTP 500
    | SchemaRejected(fields: set<string>)  // marshmallow errors, keyed by field
    | TokenRejected(reason: Rejection)     // jwt_required refused the token

  function Unprocessable(message: string, detail: Detail): ApiError {
    ApiError(422, "Unprocessable Entity", message, detail)
  }
}

=== FILE: invariants.dfy ===
/** The database constraints and handler-kept rules as invariants of the whole API: every
    committed request keeps `Wf`. Unique item names per store are not among them: POST keeps
    them, but PUT breaks them on both paths as written (a rename onto a higher-id item, see
    Items.PutAsWrittenMissesLaterClash, and a create without a name check, see
    PutCreateBreaksUniqueItemNames). Only the corrected update path keeps them. */
module Invariants {
  import opened Wrappers
  import opened Exceptions
  import opened Schemas
  import opened Models
  import opened Tokens
  import Items
  import Tags
  import Stores
  import Users

  lemma PostItemKeepsInvariants(s: Db, d: ItemData)
    requires Wf(s) && ValidItem(d) && Items.PostItem(s, d).Ok?
    ensures Wf(Items.PostItem(s, d).value.db)
    ensures ItemNamesUniquePerStore(s) ==> ItemNamesUniquePerStore(Items.PostItem(s, d).value.db)
  {
  }

  /** The update path as written still keeps every table constraint; only the handler-kept
      per-store item-name rule, which `Wf` does not include, can be lost. */
  lemma PutAsWrittenKeepsInvariants(s: Db, itemId: int, d: ItemUpdateData)
    requires Wf(s) && ValidUpdate(d) && Items.PutAsWritten(s, itemId, d).Ok?
    ensures Wf(Items.PutAsWritten(s, itemId, d).value.db)
  {
  }

  /** The corrected PUT (see Items.Put) keeps every table constraint and, on an existing item,
      per-store item-name uniqueness. */
  lemma PutKeepsInvariants(s: Db, itemId: int, d: ItemUpdateData)
    requires Wf(s) && ValidUpdate(d) && Items.Put(s, itemId, d).Ok?
    ensures Wf(Items.Put(s, itemId, d).value.db)
    ensures itemId in s.items && ItemNamesUniquePerStore(s)
      ==> ItemNamesUniquePerStore(Items.Put(s, itemId, d).value.db)
  {
  }

  /** The state of the example below: store 7 with one item, "Pen" (id 1). */
  lemma OnePenState(s: Db)
    requires s == Empty().(stores := map[7 := Store(7, "Books")], items := map[1 := Item(1, "Pen", 1.5, 7)])
    ensures Wf(s) && ItemNamesUniquePerStore(s)
    ensures s.items.Keys == {1} && NextId(s.items.Keys) == 2
  {
    assert forall k :: k in s.stores ==> k == 7;
    assert forall k :: k in s.items ==> k == 1;
  }

  /** The create path of PUT skips the name check: whenever the payload names a store that
      already holds an item with the payload's name, PUT on a missing id commits a duplicate. */
  lemma PutCreateDuplicatesName(s: Db, itemId: int, d: ItemUpdateData, k: int)
    requires ValidUpdate(d) && itemId !in s.items && d.description.None? && d.storeId.Some?
    requires k in s.items && s.items[k].storeId == d.storeId.value && s.items[k].name == d.name
    ensures Items.PutAsWritten(s, itemId, d).Ok?
    ensures !ItemNamesUniquePerStore(Items.PutAsWritten(s, itemId, d).value.db)
  {
    var t := Items.PutAsWritten(s, itemId, d).value;
    assert t.body.id != k && t.db.items[k] == s.items[k] && t.db.items[t.body.id] == t.body;
  }

  /** A concrete instance: from a state whose item names are unique per store, PUT on id 99
      adds a second "Pen" (id 2) to store 7. */
  lemma PutCreateBreaksUniqueItemNames()
    ensures
      var s := Empty().(stores := map[7 := Store(7, "Books")], items := map[1 := Item(1, "Pen", 1.5, 7)]);
      var d := ItemUpdateData("Pen", 2.0, None, Some(7));
      && Wf(s) && ItemNamesUniquePerStore(s)
      && Items.PutAsWritten(s, 99, d).Ok?
      && Items.PutAsWritten(s, 99, d).value.body.id == 2
      && !ItemNamesUniquePerStore(Items.PutAsWritten(s, 99, d).value.db)
  {
    var s := Empty().(stores := map[7 := Store(7, "Books")], items := map[1 := Item(1, "Pen", 1.5, 7)]);
    var d := ItemUpdateData("Pen", 2.0, None, Some(7));
    OnePenState(s);
    PutCreateDuplicatesName(s, 99, d, 1);
  }

  lemma DeleteItemKeepsInvariants(s: Db, itemId: int)
    requires Wf(s) && Items.DeleteItem(s, itemId).Ok?
    ensures Wf(Items.DeleteItem(s, itemId).value.db)
    ensures ItemNamesUniquePerStore(s) ==> ItemNamesUniquePerStore(Items.DeleteItem(s, itemId).value.db)
  {
  }

  lemma PostTagKeepsInvariants(s: Db, storeId: int, d: TagData)
    requires Wf(s) && ValidName(d.name) && Tags.PostTag(s, storeId, d).Ok?
    ensures Wf(Tags.PostTag(s, storeId, d).value.db)
  {
  }

  lemma DeleteTagKeepsInvariants(s: Db, tagId: int)
    requires Wf(s) && Tags.DeleteTag(s, tagId).Ok?
    ensures Wf(Tags.DeleteTag(s, tagId).value.db)
  {
    var t := Tags.DeleteTag(s, tagId).value.db;
    forall p | p in t.links ensures p.1 != tagId {
      if p.1 == tagId {
        TagsOfInvertsItemsOf(s, p.0, tagId);
      }
    }
  }

  lemma LinkKeepsInvariants(s: Db, itemId: int, tagId: int)
    requires Wf(s) && Tags.LinkTag(s, itemId, tagId).Ok?
    ensures Wf(Tags.LinkTag(s, itemId, tagId).value.db)
  {
  }

  lemma UnlinkKeepsInvariants(s: Db, itemId: int, tagId: int)
    requires Wf(s) && Tags.UnlinkTag(s, itemId, tagId).Ok?
    ensures Wf(Tags.UnlinkTag(s, itemId, tagId).value.db)
  {
  }

  lemma PostStoreKeepsInvariants(s: Db, d: StoreData)
    requires Wf(s) && ValidName(d.name) && Stores.PostStore(s, d).Ok?
    ensures Wf(Stores.PostStore(s, d).value.db)
  {
  }

  lemma DeleteStoreKeepsInvariants(s: Db, storeId: int)
    requires Wf(s) && Stores.DeleteStore(s, storeId).Ok?
    ensures Wf(Stores.DeleteStore(s, storeId).value.db)
    ensures ItemNamesUniquePerStore(s) ==> ItemNamesUniquePerStore(Stores.DeleteStore(s, storeId).value.db)
  {
  }

  lemma RegisterKeepsInvariants(s: Db, h: Users.Hasher, d: UserData)
    requires Wf(s) && ValidUser(d) && Users.Register(s, h, d).Ok?
    ensures Wf(Users.Register(s, h, d).value.db)
  {
  }

  lemma TokenRoutesKeepInvariants(s: Db, issuer: Issuer, presented: Option<Token>, newJti: string)
    requires Wf(s)
    ensures Users.Logout(s, presented).Ok? ==> Wf(Users.Logout(s, presented).value.db)
    ensures Users.TokenRefresh(s, issuer, presented, newJti).Ok?
      ==> Wf(Users.TokenRefresh(s, issuer, presented, newJti).value.db)
    ensures Users.DeleteUser(s, presented).Ok? ==> Wf(Users.DeleteUser(s, presented).value.db)
  {
  }
}

=== FILE: items.dfy ===
/** The item routes (resources/items.py): list, create, read, update-or-create, delete,
    and the per-store name check they share. */
module Items {
  import opened Wrappers
  import opened Exceptions
  import opened Schemas
  import opened Models

  /** The error `validate_item_name` raises. */
  function NameInUseForStore(name: string): Failure {
    Api(Unprocessable("Item name already in use for store", ItemNameDetail(name)))
  }

  /** `ItemModel(**item_data)` with a `description` key: the model has no such column. */
  const NoDescriptionColumn: Failure := Unhandled(InvalidKeyword("description"))

  /** The ids of the items of a store that carry a name: the rows the name query matches. */
  function Named(s: Db, storeId: int, name: string): (ids: set<int>)
    ensures forall k :: k in ids <==> k in s.items && s.items[k].storeId == storeId && s.items[k].name == name
  {
    set k | k in s.items && s.items[k].storeId == storeId && s.items[k].name == name
  }

  /** `validate_item_name`: looks up the first item (lowest id) of the store with the name and
      fails unless there is none or it is the item being updated. */
  function ValidateItemName(s: Db, name: string, storeId: int, current: Option<int>): (r: Result<(), Failure>)
    ensures r.Err? ==> r.error == NameInUseForStore(name)
    ensures r.Ok? <==>
      forall k :: k in Named(s, storeId, name) ==>
        current.Some? && current.value in Named(s, storeId, name) && current.value <= k
  {
    var ids := Named(s, storeId, name);
    if ids == {} then Ok(())
    else
      var first := Least(ids);
      if current.None? || current.value != first then Err(NameInUseForStore(name)) else Ok(())
  }

  /** With no item being updated, the check fails exactly when the store already has an item
      with the name. */
  lemma ValidateOnCreate(s: Db, name: string, storeId: int)
    ensures ValidateItemName(s, name, storeId, None).Ok? <==>
      !exists k :: k in s.items && s.items[k].storeId == storeId && s.items[k].name == name
  {
  }

  /** The item being updated is exempt: if it is the only one with the name, the check passes. */
  lemma ValidateExemptsCurrent(s: Db, name: string, storeId: int, itemId: int)
    requires Named(s, storeId, name) == {itemId}
    ensures ValidateItemName(s, name, storeId, Some(itemId)).Ok?
  {
  }

  /** The query filters on both store and name: an item of another store never matters. */
  lemma ValidateIgnoresOtherStores(s: Db, name: string, storeId: int, current: Option<int>, other: Item)
    requires other.id !in s.items && other.storeId != storeId
    ensures ValidateItemName(s.(items := s.items[other.id := other]), name, storeId, current)
         == ValidateItemName(s, name, storeId, current)
  {
    assert Named(s.(items := s.items[other.id := other]), storeId, name) == Named(s, storeId, name);
  }

  // ---------------------------------------------------------------------------
  // Routes

  /** GET /items: every item, in id order. */
  method GetItems(s: Db) returns (r: seq<Item>)
    ensures |r| == |s.items|
    ensures forall it :: it in r <==> it in s.items.Values
    ensures KeysMatch(s) ==> forall i, j :: 0 <= i < j < |r| ==> r[i].id < r[j].id
  {
    var ids := SortedIds(s.items.Keys);
    r := seq(|ids|, i requires 0 <= i < |ids| => s.items[ids[i]]);
    forall it | it in s.items.Values ensures it in r {
      var k := KeyOf(s.items, it);
      var i :| 0 <= i < |ids| && ids[i] == k;
      assert r[i] == it;
    }
  }

  /** POST /items. */
  function PostItem(s: Db, d: ItemData): (r: Result<Done<Item>, Failure>)
    requires ValidItem(d)
    ensures r.Ok? <==>
      d.description.None? &&
      !exists k :: k in s.items && s.items[k].storeId == d.storeId && s.items[k].name == d.name
    ensures d.description.Some? ==> r == Err(NoDescriptionColumn)
    ensures r.Err? && d.description.None? ==> r.error == NameInUseForStore(d.name)
    ensures r.Ok? ==>
      var it := r.value.body;
      && it.id !in s.items && (forall k :: k in s.items ==> k < it.id)
      && it.name == d.name && it.price == d.price && it.storeId == d.storeId
      && r.value.db == s.(items := s.items[it.id := it])
  {
    if d.description.Some? then Err(NoDescriptionColumn)
    else
      ValidateOnCreate(s, d.name, d.storeId);
      var _ :- ValidateItemName(s, d.name, d.storeId, None);
      var it := Item(NextId(s.items.Keys), d.name, d.price, d.storeId);
      Ok(Done(s.(items := s.items[it.id := it]), it))
  }

  /** GET /items/<id>. */
  function GetItem(s: Db, itemId: int): (r: Result<Item, Failure>)
    ensures r.Ok? <==> itemId in s.items
    ensures r.Ok? ==> r.value == s.items[itemId]
    ensures r.Err? ==> r.error == NotFound
  {
    if itemId in s.items then Ok(s.items[itemId]) else Err(NotFound)
  }

  /** PUT /items/<id> on an id that does not exist: a new row built from the payload alone.
      The path id is not used, and the per-store name check is not run. */
  function PutCreate(s: Db, d: ItemUpdateData): (r: Result<Done<Item>, Failure>)
    requires ValidUpdate(d)
    ensures r.Ok? <==> d.description.None? && d.storeId.Some?
    ensures d.description.Some? ==> r == Err(NoDescriptionColumn)
    ensures d.description.None? && d.storeId.None? ==>
      r == Err(Api(Unprocessable("Item name already in use", ItemPayloadDetail(d.name, d.price))))
    ensures r.Ok? ==>
      var it := r.value.body;
      && it.id !in s.items && (forall k :: k in s.items ==> k < it.id)
      && it.name == d.name && it.price == d.price && it.storeId == d.storeId.value
      && r.value.db == s.(items := s.items[it.id := it])
  {
    if d.description.Some? then Err(NoDescriptionColumn)
    // store_id is NOT NULL: the insert fails and the IntegrityError is reported as a name clash
    else if d.storeId.None? then Err(Api(Unprocessable("Item name already in use", ItemPayloadDetail(d.name, d.price))))
    else
      var it := Item(NextId(s.items.Keys), d.name, d.price, d.storeId.value);
      Ok(Done(s.(items := s.items[it.id := it]), it))
  }

  /** PUT /items/<id> as written. The handler assigns the new name to the loaded row before it
      runs the name query; the session flushes pending changes before a query, so the query
      already sees the row under its new name, and `.first()` returns it whenever its id is the
      lowest among the matches. */
  function PutAsWritten(s: Db, itemId: int, d: ItemUpdateData): (r: Result<Done<Item>, Failure>)
    requires ValidUpdate(d)
    ensures itemId !in s.items ==> r == PutCreate(s, d)
    ensures itemId in s.items && r.Err? ==> r.error == NameInUseForStore(d.name)
    ensures itemId in s.items && r.Ok? ==>
      && r.value.body == s.items[itemId].(name := d.name, price := d.price)
      && r.value.db == s.(items := s.items[itemId := r.value.body])
  {
    if itemId in s.items then
      var it := s.items[itemId].(name := d.name, price := d.price);
      var flushed := s.(items := s.items[itemId := it]);
      var _ :- ValidateItemName(flushed, d.name, it.storeId, Some(itemId));
      Ok(Done(flushed, it))
    else
      PutCreate(s, d)
  }

  /** The update path as written rejects a clash only with an item of LOWER id. */
  lemma PutAsWrittenAccepts(s: Db, itemId: int, d: ItemUpdateData)
    requires ValidUpdate(d) && itemId in s.items
    ensures PutAsWritten(s, itemId, d).Ok? <==>
      forall k :: k in Named(s, s.items[itemId].storeId, d.name) && k != itemId ==> itemId < k
  {
    var st := s.items[itemId].storeId;
    var it := s.items[itemId].(name := d.name, price := d.price);
    var flushed := s.(items := s.items[itemId := it]);
    var after := Named(flushed, st, d.name);
    assert after == Named(s, st, d.name) - {itemId} + {itemId};
    var ok := forall k :: k in Named(s, st, d.name) && k != itemId ==> itemId < k;
    if ok {
      assert forall k :: k in after ==> itemId <= k;
      assert ValidateItemName(flushed, d.name, st, Some(itemId)).Ok?;
    } else {
      var k :| k in Named(s, st, d.name) && k != itemId && k < itemId;
      assert k in after;
      assert ValidateItemName(flushed, d.name, st, Some(itemId)).Err?;
    }
  }

  /** A concrete run of the update path as written: "Pen" (id 1) is renamed to "Cup" while
      "Cup" (id 2) exists in the same store. The rename is accepted and leaves two items named
      "Cup" in the store; the corrected handler refuses it. */
  lemma PutAsWrittenMissesLaterClash()
    ensures
      var s := Empty().(items := map[1 := Item(1, "Pen", 1.0, 7), 2 := Item(2, "Cup", 1.0, 7)]);
      var d := ItemUpdateData("Cup", 2.0, None, None);
      && ItemNamesUniquePerStore(s)
      && PutAsWritten(s, 1, d).Ok?
      && !ItemNamesUniquePerStore(PutAsWritten(s, 1, d).value.db)
      && Put(s, 1, d) == Err(NameInUseForStore("Cup"))
  {
    var s := Empty().(items := map[1 := Item(1, "Pen", 1.0, 7), 2 := Item(2, "Cup", 1.0, 7)]);
    var d := ItemUpdateData("Cup", 2.0, None, None);
    assert Named(s, 7, "Cup") == {2} by {
      assert "Pen" != "Cup";
    }
    PutAsWrittenAccepts(s, 1, d);
    var after := PutAsWritten(s, 1, d).value.db;
    assert after.items[1].name == "Cup" && after.items[2].name == "Cup";
  }

  /** PUT /items/<id>, corrected: an existing item gets the payload's name and price, keeps its
      id and store whatever store_id the payload carries, and is refused when another item of
      its store already has the new name. A missing id goes to PutCreate. */
  function Put(s: Db, itemId: int, d: ItemUpdateData): (r: Result<Done<Item>, Failure>)
    requires ValidUpdate(d)
    ensures itemId !in s.items ==> r == PutCreate(s, d)
    ensures itemId in s.items ==>
      (r.Ok? <==>
        !exists k :: k in s.items && k != itemId
          && s.items[k].storeId == s.items[itemId].storeId && s.items[k].name == d.name)
    ensures itemId in s.items && r.Err? ==> r.error == NameInUseForStore(d.name)
    ensures itemId in s.items && r.Ok? ==>
      var it := r.value.body;
      && it.id == s.items[itemId].id && it.storeId == s.items[itemId].storeId
      && it.name == d.name && it.price == d.price
      && r.value.db == s.(items := s.items[itemId := it])
  {
    if itemId in s.items then
      var it := s.items[itemId].(name := d.name, price := d.price);
      if Named(s, it.storeId, d.name) - {itemId} != {} then
        assert Least(Named(s, it.storeId, d.name) - {itemId}) in Named(s, it.storeId, d.name);
        Err(NameInUseForStore(d.name))
      else
        assert forall k :: (k in s.items && k != itemId && s.items[k].storeId == it.storeId
                              && s.items[k].name == d.name) ==> k in Named(s, it.storeId, d.name) - {itemId};
        Ok(Done(s.(items := s.items[itemId := it]), it))
    else
      PutCreate(s, d)
  }

  /** DELETE /items/<id>: the row goes, and so do its rows in the join table. */
  function DeleteItem(s: Db, itemId: int): (r: Result<Done<()>, Failure>)
    ensures r.Ok? <==> itemId in s.items
    ensures r.Err? ==> r.error == NotFound
    ensures r.Ok? ==>
      && r.value.db.items == s.items - {itemId}
      && (forall p :: p in r.value.db.links <==> p in s.links && p.0 != itemId)
      && r.value.db == s.(items := r.value.db.items, links := r.value.db.links)
  {
    if itemId in s.items then
      var links := set p | p in s.links && p.0 != itemId;
      Ok(Done(s.(items := s.items - {itemId}, links := links), ()))
    else
      Err(NotFound)
  }

  /** What GET /items/<id> reads back after each write: the created or updated item itself,
      404 for a deleted one, and every other id as before. The update is stated both for the
      handler as written and for the corrected one. */
  lemma GetItemAfterWrites(s: Db, d: ItemData, u: ItemUpdateData, itemId: int)
    requires ValidItem(d) && ValidUpdate(u)
    ensures PostItem(s, d).Ok? ==>
      var t := PostItem(s, d).value;
      && GetItem(t.db, t.body.id) == Ok(t.body)
      && forall k :: k != t.body.id ==> GetItem(t.db, k) == GetItem(s, k)
    ensures PutAsWritten(s, itemId, u).Ok? ==>
      var t := PutAsWritten(s, itemId, u).value;
      var key := if itemId in s.items then itemId else t.body.id;
      && GetItem(t.db, key) == Ok(t.body)
      && forall k :: k != key ==> GetItem(t.db, k) == GetItem(s, k)
    ensures Put(s, itemId, u).Ok? ==>
      var t := Put(s, itemId, u).value;
      var key := if itemId in s.items then itemId else t.body.id;
      && GetItem(t.db, key) == Ok(t.body)
      && forall k :: k != key ==> GetItem(t.db, k) == GetItem(s, k)
    ensures DeleteItem(s, itemId).Ok? ==>
      var t := DeleteItem(s, itemId).value;
      && GetItem(t.db, itemId) == Err(NotFound)
      && forall k :: k != itemId ==> GetItem(t.db, k) == GetItem(s, k)
  {
  }
}

=== FILE: models.dfy ===
/** The database tables (the models package) and the in-process revocation set,
    as one immutable state. Each table is a map from primary key to row;
    the `items_tags` join table is a set of (item id, tag id) pairs. */
module Models {
  import opened Schemas

  datatype Store = Store(id: int, name: string)
  datatype Item = Item(id: int, name: string, price: real, storeId: int)
  datatype Tag = Tag(id: int, name: string, storeId: int)
  /** `password` holds the stored hash, never the plaintext. */
  datatype User = User(id: int, username: string, password: string)

  datatype Db = Db(
    stores: map<int, Store>,
    items: map<int, Item>,
    tags: map<int, Tag>,
    users: map<int, User>,
    links: set<(int, int)>,
    blocklist: set<string>)

  /** A committed request: the new state and the response body. */
  datatype Done<T> = Done(db: Db, body: T)

  // ---------------------------------------------------------------------------
  // Keys: row order and id allocation

  lemma {:induction false} GreatestExists(ks: set<int>)
    requires ks != {}
    ensures exists m :: m in ks && forall k :: k in ks ==> k <= m
  {
    var x := PickOne(ks);
    var rest := ks - {x};
    if rest == {} {
      forall k | k in ks ensures k <= x {
        assert k !in rest;
      }
    } else {
      GreatestExists(rest);
      var m :| m in rest && forall k :: k in rest ==> k <= m;
      var top := if x <= m then m else x;
      forall k | k in ks ensures k <= top {
        if k != x {
          assert k in rest;
        }
      }
      assert top in ks;
    }
  }

  lemma {:induction false} LeastExists(ks: set<int>)
    requires ks != {}
    ensures exists m :: m in ks && forall k :: k in ks ==> m <= k
  {
    var x := PickOne(ks);
    var rest := ks - {x};
    if rest == {} {
      forall k | k in ks ensures x <= k {
        assert k !in rest;
      }
    } else {
      LeastExists(rest);
      var m :| m in rest && forall k :: k in rest ==> m <= k;
      var bottom := if m <= x then m else x;
      forall k | k in ks ensures bottom <= k {
        if k != x {
          assert k in rest;
        }
      }
      assert bottom in ks;
    }
  }

  /** Some element of a non-empty set. */
  lemma PickOne(ks: set<int>) returns (x: int)
    requires ks != {}
    ensures x in ks
  {
    if forall y :: y !in ks {
      assert false;
    }
    var y :| y in ks;
    x := y;
  }

  /** A key under which a map stores a value it holds. */
  lemma KeyOf<T>(m: map<int, T>, v: T) returns (k: int)
    requires v in m.Values
    ensures k in m && m[k] == v
  {
    if forall j :: j in m ==> m[j] != v {
      assert false;
    }
    k :| k in m && m[k] == v;
  }

  function Greatest(ks: set<int>): (m: int)
    requires ks != {}
    ensures m in ks && forall k :: k in ks ==> k <= m
  {
    GreatestExists(ks);
    var m :| m in ks && forall k :: k in ks ==> k <= m;
    m
  }

  /** The lowest key: the row `.first()` returns from an unordered query,
      since SQLite scans a table in rowid order. */
  function Least(ks: set<int>): (m: int)
    requires ks != {}
    ensures m in ks && forall k :: k in ks ==> m <= k
  {
    LeastExists(ks);
    var m :| m in ks && forall k :: k in ks ==> m <= k;
    m
  }

  /** The primary key SQLite gives a new row when none is supplied: one more
      than the largest key in the table, or 1 in an empty table. */
  function NextId(ks: set<int>): (id: int)
    ensures id !in ks
    ensures forall k :: k in ks ==> k < id
    ensures ks == {} ==> id == 1
    ensures ks != {} ==> id - 1 in ks
  {
    if ks == {} then 1 else Greatest(ks) + 1
  }

  /** The keys of a table in the order `.all()` yields them (rowid order). */
  method SortedIds(ks: set<int>) returns (r: seq<int>)
    ensures forall i, j :: 0 <= i < j < |r| ==> r[i] < r[j]
    ensures forall k :: k in r <==> k in ks
    ensures forall i :: 0 <= i < |r| ==> r[i] in ks
    ensures |r| == |ks|
  {
    r := [];
    var rest := ks;
    while rest != {}
      invariant rest <= ks
      invariant forall k :: k in r <==> k in ks && k !in rest
      invariant forall i, j :: 0 <= i < j < |r| ==> r[i] < r[j]
      invariant forall i, k :: 0 <= i < |r| && k in rest ==> r[i] < k
      decreases rest
    {
      var m := Least(rest);
      r := r + [m];
      rest := rest - {m};
    }
    DistinctSize(r, ks);
  }

  /** A strictly increasing sequence lists each element of its set once. */
  lemma {:induction false} DistinctSize(ids: seq<int>, ks: set<int>)
    requires forall i, j :: 0 <= i < j < |ids| ==> ids[i] < ids[j]
    requires forall k :: k in ids <==> k in ks
    ensures |ids| == |ks|
    decreases |ids|
  {
    if ids != [] {
      var last := ids[|ids| - 1];
      var front := ids[..|ids| - 1];
      assert forall k :: k in front <==> k in ks - {last} by {
        forall k ensures k in front <==> k in ks - {last} {
          if k in front {
            var i :| 0 <= i < |front| && front[i] == k;
            assert ids[i] < last;
          }
          if k in ks - {last} {
            assert k in ids;
            var i :| 0 <= i < |ids| && ids[i] == k;
            assert i != |ids| - 1;
            assert front[i] == k;
          }
        }
      }
      DistinctSize(front, ks - {last});
    } else {
      if forall k :: k !in ks {
        assert ks == {};
      }
    }
  }


  // ---------------------------------------------------------------------------
  // The many-to-many relation seen from either side

  /** `item.tags`: the ids of the tags linked to an item. */
  function TagsOf(s: Db, itemId: int): set<int> {
    set p | p in s.links && p.0 == itemId :: p.1
  }

  /** `tag.items`: the ids of the items linked to a tag. */
  function ItemsOf(s: Db, tagId: int): set<int> {
    set p | p in s.links && p.1 == tagId :: p.0
  }

  /** Both relationships read the same join table, so each is the other's inverse. */
  lemma TagsOfInvertsItemsOf(s: Db, itemId: int, tagId: int)
    ensures tagId in TagsOf(s, itemId) <==> itemId in ItemsOf(s, tagId)
    ensures tagId in TagsOf(s, itemId) <==> (itemId, tagId) in s.links
  {
    if (itemId, tagId) in s.links {
      assert tagId in TagsOf(s, itemId);
      assert itemId in ItemsOf(s, tagId);
    }
  }

  // ---------------------------------------------------------------------------
  // Table constraints and the invariants the handlers keep

  /** Primary keys: every row is stored under its own id. */
  predicate KeysMatch(s: Db) {
    && (forall k :: k in s.stores ==> s.stores[k].id == k)
    && (forall k :: k in s.items ==> s.items[k].id == k)
    && (forall k :: k in s.tags ==> s.tags[k].id == k)
    && (forall k :: k in s.users ==> s.users[k].id == k)
  }

  /** `StoreModel.name` is unique. */
  predicate StoreNamesUnique(s: Db) {
    forall a, b :: a in s.stores && b in s.stores && a != b ==> s.stores[a].name != s.stores[b].name
  }

  /** `UserModel.username` is unique. */
  predicate UsernamesUnique(s: Db) {
    forall a, b :: a in s.users && b in s.users && a != b ==> s.users[a].username != s.users[b].username
  }

  /** No two tags of one store share a name (kept by the tag handler, not by a constraint). */
  predicate TagNamesUniquePerStore(s: Db) {
    forall a, b :: a in s.tags && b in s.tags && a != b && s.tags[a].storeId == s.tags[b].storeId
      ==> s.tags[a].name != s.tags[b].name
  }

  /** No two items of one store share a name. Not an invariant of the API: both paths of PUT
      can break it (see Items.PutAsWritten and Items.PutCreate). */
  predicate ItemNamesUniquePerStore(s: Db) {
    forall a, b :: a in s.items && b in s.items && a != b && s.items[a].storeId == s.items[b].storeId
      ==> s.items[a].name != s.items[b].name
  }

  /** Every link joins an existing item and an existing tag of the same store. */
  predicate LinksWf(s: Db) {
    forall p :: p in s.links ==>
      && p.0 in s.items && p.1 in s.tags
      && s.items[p.0].storeId == s.tags[p.1].storeId
  }

  /** Every stored name passed its schema's validators. */
  predicate FieldsValid(s: Db) {
    && (forall k :: k in s.stores ==> ValidName(s.stores[k].name))
    && (forall k :: k in s.items ==> ValidName(s.items[k].name) && ValidPrice(s.items[k].price))
    && (forall k :: k in s.tags ==> ValidName(s.tags[k].name))
    && (forall k :: k in s.users ==> ValidUsername(s.users[k].username))
  }

  predicate Wf(s: Db) {
    && KeysMatch(s)
    && StoreNamesUnique(s)
    && UsernamesUnique(s)
    && TagNamesUniquePerStore(s)
    && LinksWf(s)
    && FieldsValid(s)
  }

  /** The state of a freshly created database. */
  function Empty(): (s: Db)
    ensures Wf(s) && ItemNamesUniquePerStore(s)
    ensures s.stores == map[] && s.items == map[] && s.tags == map[] && s.users == map[]
    ensures s.links == {} && s.blocklist == {}
  {
    Db(map[], map[], map[], map[], {}, {})
  }
}

=== FILE: schemas.dfy ===
/** The marshmallow schemas that validate request bodies (schemas.py).

    A request body is a JSON object; `Body` holds every key these schemas
    declare, each possibly absent. Any other key a client sends (`items`,
    `tags`, `store` and so on) is refused by every schema just as `id` is,
    so it is not represented separately. Each schema refuses keys it
    does not declare for loading (marshmallow's default for unknown keys,
    which also covers the dump_only `id`), requires its required keys, and
    applies its length and range validators. A refusal names the offending
    keys, as marshmallow's error dictionary does. */
module Schemas {
  import opened Wrappers
  import opened Exceptions

  const MinNameLength: nat := 3
  const MinPasswordLength: nat := 8
  const MinPrice: real := 0.01

  datatype Body = Body(
    id: Option<int>,
    name: Option<string>,
    price: Option<real>,
    description: Option<string>,
    storeId: Option<int>,
    username: Option<string>,
    password: Option<string>)

  /** Loaded payloads: what each schema hands to its handler. None carries an id. */
  datatype ItemData = ItemData(name: string, price: real, description: Option<string>, storeId: int)
  datatype ItemUpdateData = ItemUpdateData(name: string, price: real, description: Option<string>, storeId: Option<int>)
  datatype StoreData = StoreData(name: string)
  datatype TagData = TagData(name: string)
  datatype UserData = UserData(username: string, password: string)

  predicate ValidName(name: string) {
    |name| >= MinNameLength
  }

  predicate ValidPrice(price: real) {
    price >= MinPrice
  }

  predicate ValidItem(d: ItemData) {
    ValidName(d.name) && ValidPrice(d.price)
  }

  predicate ValidUpdate(d: ItemUpdateData) {
    ValidName(d.name) && ValidPrice(d.price)
  }

  /** UserSchema's validators: `Length(min=3)` on the username, `Length(min=8)` on the password. */
  predicate ValidUsername(username: string) {
    |username| >= MinNameLength
  }

  predicate ValidPassword(password: string) {
    |password| >= MinPasswordLength
  }

  predicate ValidUser(d: UserData) {
    ValidUsername(d.username) && ValidPassword(d.password)
  }

  /** The keys present in a body. */
  function Present(b: Body): set<string> {
    (if b.id.Some? then {"id"} else {})
    + (if b.name.Some? then {"name"} else {})
    + (if b.price.Some? then {"price"} else {})
    + (if b.description.Some? then {"description"} else {})
    + (if b.storeId.Some? then {"store_id"} else {})
    + (if b.username.Some? then {"username"} else {})
    + (if b.password.Some? then {"password"} else {})
  }

  /** The keys a schema rejects: undeclared, missing though required, or failing a validator. */
  function Errors(b: Body, loadable: set<string>, required: set<string>): set<string> {
    (Present(b) - loadable)
    + (required - Present(b))
    + (if b.name.Some? && !ValidName(b.name.value) then {"name"} else {})
    + (if b.price.Some? && !ValidPrice(b.price.value) then {"price"} else {})
    + (if b.username.Some? && !ValidUsername(b.username.value) then {"username"} else {})
    + (if b.password.Some? && !ValidPassword(b.password.value) then {"password"} else {})
  }

  /** ItemSchema.load: name, price and store_id required, description optional. */
  function LoadItem(b: Body): (r: Result<ItemData, Failure>)
    ensures r.Ok? <==>
      && b.id.None? && b.username.None? && b.password.None?
      && b.name.Some? && ValidName(b.name.value)
      && b.price.Some? && ValidPrice(b.price.value)
      && b.storeId.Some?
    ensures r.Ok? ==> ValidItem(r.value) && ItemBody(r.value) == b
    ensures r.Err? ==> r.error.SchemaRejected? && r.error.fields != {}
    ensures b.id.Some? ==> r.Err? && "id" in r.error.fields
  {
    var errors := Errors(b, {"name", "price", "description", "store_id"}, {"name", "price", "store_id"});
    if errors == {} then
      assert "name" in Present(b) && "price" in Present(b) && "store_id" in Present(b);
      Ok(ItemData(b.name.value, b.price.value, b.description, b.storeId.value))
    else
      Err(SchemaRejected(errors))
  }

  function ItemBody(d: ItemData): Body {
    Body(None, Some(d.name), Some(d.price), d.description, Some(d.storeId), None, None)
  }

  /** ItemUpdateSchema.load: name and price required, description and store_id optional. */
  function LoadItemUpdate(b: Body): (r: Result<ItemUpdateData, Failure>)
    ensures r.Ok? <==>
      && b.id.None? && b.username.None? && b.password.None?
      && b.name.Some? && ValidName(b.name.value)
      && b.price.Some? && ValidPrice(b.price.value)
    ensures r.Ok? ==> ValidUpdate(r.value) && ItemUpdateBody(r.value) == b
    ensures r.Err? ==> r.error.SchemaRejected? && r.error.fields != {}
    ensures b.id.Some? ==> r.Err? && "id" in r.error.fields
  {
    var errors := Errors(b, {"name", "price", "description", "store_id"}, {"name", "price"});
    if errors == {} then
      assert "name" in Present(b) && "price" in Present(b);
      Ok(ItemUpdateData(b.name.value, b.price.value, b.description, b.storeId))
    else
      Err(SchemaRejected(errors))
  }

  function ItemUpdateBody(d: ItemUpdateData): Body {
    Body(None, Some(d.name), Some(d.price), d.description, d.storeId, None, None)
  }

  /** StoreSchema.load: name required. */
  function LoadStore(b: Body): (r: Result<StoreData, Failure>)
    ensures r.Ok? <==>
      && b.id.None? && b.price.None? && b.description.None? && b.storeId.None?
      && b.username.None? && b.password.None?
      && b.name.Some? && ValidName(b.name.value)
    ensures r.Ok? ==> ValidName(r.value.name) && NameBody(r.value.name) == b
    ensures r.Err? ==> r.error.SchemaRejected? && r.error.fields != {}
    ensures b.id.Some? ==> r.Err? && "id" in r.error.fields
  {
    var errors := Errors(b, {"name"}, {"name"});
    if errors == {} then
      assert "name" in Present(b);
      Ok(StoreData(b.name.value))
    else
      Err(SchemaRejected(errors))
  }

  /** PlainTagSchema.load: name required. */
  function LoadTag(b: Body): (r: Result<TagData, Failure>)
    ensures r.Ok? <==>
      && b.id.None? && b.price.None? && b.description.None? && b.storeId.None?
      && b.username.None? && b.password.None?
      && b.name.Some? && ValidName(b.name.value)
    ensures r.Ok? ==> ValidName(r.value.name) && NameBody(r.value.name) == b
    ensures r.Err? ==> r.error.SchemaRejected? && r.error.fields != {}
    ensures b.id.Some? ==> r.Err? && "id" in r.error.fields
  {
    var errors := Errors(b, {"name"}, {"name"});
    if errors == {} then
      assert "name" in Present(b);
      Ok(TagData(b.name.value))
    else
      Err(SchemaRejected(errors))
  }

  function NameBody(name: string): Body {
    Body(None, Some(name), None, None, None, None, None)
  }

  /** UserSchema.load: username and password required. */
  function LoadUser(b: Body): (r: Result<UserData, Failure>)
    ensures r.Ok? <==>
      && b.id.None? && b.name.None? && b.price.None? && b.description.None? && b.storeId.None?
      && b.username.Some? && ValidUsername(b.username.value)
      && b.password.Some? && ValidPassword(b.password.value)
    ensures r.Ok? ==> ValidUser(r.value) && UserBody(r.value) == b
    ensures r.Err? ==> r.error.SchemaRejected? && r.error.fields != {}
    ensures b.id.Some? ==> r.Err? && "id" in r.error.fields
  {
    var errors := Errors(b, {"username", "password"}, {"username", "password"});
    if errors == {} then
      assert "username" in Present(b) && "password" in Present(b);
      Ok(UserData(b.username.value, b.password.value))
    else
      Err(SchemaRejected(errors))
  }

  function UserBody(d: UserData): Body {
    Body(None, None, None, None, None, Some(d.username), Some(d.password))
  }

  /** Every payload a schema would accept is loaded back unchanged from its body. */
  lemma LoadRoundTrips(item: ItemData, update: ItemUpdateData, store: StoreData, tag: TagData, user: UserData)
    requires ValidItem(item) && ValidUpdate(update) && ValidName(store.name) && ValidName(tag.name)
    requires ValidUser(user)
    ensures LoadItem(ItemBody(item)) == Ok(item)
    ensures LoadItemUpdate(ItemUpdateBody(update)) == Ok(update)
    ensures LoadStore(NameBody(store.name)) == Ok(store)
    ensures LoadTag(NameBody(tag.name)) == Ok(tag)
    ensures LoadUser(UserBody(user)) == Ok(user)
  {
  }
}

=== FILE: stores.dfy ===
/** The store routes (resources/stores.py). A store's name is unique in the table, and deleting
    a store deletes its items and tags (the relationships' delete cascade), together with their
    rows in the join table. */
module Stores {
  import opened Wrappers
  import opened Exceptions
  import opened Schemas
  import opened Models

  /** The IntegrityError of the unique name column, as the handler reports it. */
  function StoreNameInUse(name: string): Failure {
    Api(Unprocessable("Store name already in use", StorePayloadDetail(name)))
  }

  /** GET /stores: every store, in id order. */
  method GetStores(s: Db) returns (r: seq<Store>)
    ensures |r| == |s.stores|
    ensures forall st :: st in r <==> st in s.stores.Values
    ensures KeysMatch(s) ==> forall i, j :: 0 <= i < j < |r| ==> r[i].id < r[j].id
  {
    var ids := SortedIds(s.stores.Keys);
    r := seq(|ids|, i requires 0 <= i < |ids| => s.stores[ids[i]]);
    forall st | st in s.stores.Values ensures st in r {
      var k := KeyOf(s.stores, st);
      var i :| 0 <= i < |ids| && ids[i] == k;
      assert r[i] == st;
    }
  }

  /** POST /stores. */
  function PostStore(s: Db, d: StoreData): (r: Result<Done<Store>, Failure>)
    requires ValidName(d.name)
    ensures r.Ok? <==> !exists k :: k in s.stores && s.stores[k].name == d.name
    ensures r.Err? ==> r.error == StoreNameInUse(d.name)
    ensures r.Ok? ==>
      var st := r.value.body;
      && st.id !in s.stores && (forall k :: k in s.stores ==> k < st.id)
      && st.name == d.name
      && r.value.db.stores.Keys == s.stores.Keys + {st.id}
      && r.value.db == s.(stores := s.stores[st.id := st])
  {
    if exists k :: k in s.stores && s.stores[k].name == d.name then
      Err(StoreNameInUse(d.name))
    else
      var st := Store(NextId(s.stores.Keys), d.name);
      Ok(Done(s.(stores := s.stores[st.id := st]), st))
  }

  /** GET /stores/<id>. */
  function GetStore(s: Db, storeId: int): (r: Result<Store, Failure>)
    ensures r.Ok? <==> storeId in s.stores
    ensures r.Ok? ==> r.value == s.stores[storeId]
    ensures r.Err? ==> r.error == NotFound
  {
    if storeId in s.stores then Ok(s.stores[storeId]) else Err(NotFound)
  }

  /** DELETE /stores/<id>. */
  function DeleteStore(s: Db, storeId: int): (r: Result<Done<()>, Failure>)
    ensures r.Ok? <==> storeId in s.stores
    ensures r.Err? ==> r.error == NotFound
    ensures r.Ok? ==>
      var t := r.value.db;
      && t.stores == s.stores - {storeId}
      && (forall k :: k in t.items <==> k in s.items && s.items[k].storeId != storeId)
      && (forall k :: k in t.items ==> t.items[k] == s.items[k])
      && (forall k :: k in t.tags <==> k in s.tags && s.tags[k].storeId != storeId)
      && (forall k :: k in t.tags ==> t.tags[k] == s.tags[k])
      && (forall p :: p in t.links <==>
            p in s.links
            && !(p.0 in s.items && s.items[p.0].storeId == storeId)
            && !(p.1 in s.tags && s.tags[p.1].storeId == storeId))
      && t.users == s.users && t.blocklist == s.blocklist
  {
    if storeId !in s.stores then Err(NotFound)
    else
      var goneItems := set k | k in s.items && s.items[k].storeId == storeId;
      var goneTags := set k | k in s.tags && s.tags[k].storeId == storeId;
      var t := s.(
        stores := s.stores - {storeId},
        items := s.items - goneItems,
        tags := s.tags - goneTags,
        links := set p | p in s.links && p.0 !in goneItems && p.1 !in goneTags);
      Ok(Done(t, ()))
  }

  /** What GET /stores/<id> reads back after each write: the created store itself, 404 for a
      deleted one, and every other id as before. */
  lemma GetStoreAfterWrites(s: Db, d: StoreData, storeId: int)
    requires ValidName(d.name)
    ensures PostStore(s, d).Ok? ==>
      var t := PostStore(s, d).value;
      && GetStore(t.db, t.body.id) == Ok(t.body)
      && forall k :: k != t.body.id ==> GetStore(t.db, k) == GetStore(s, k)
    ensures DeleteStore(s, storeId).Ok? ==>
      var t := DeleteStore(s, storeId).value;
      && GetStore(t.db, storeId) == Err(NotFound)
      && forall k :: k != storeId ==> GetStore(t.db, k) == GetStore(s, k)
  {
  }
}

=== FILE: tags.dfy ===
/** The tag routes (resources/tags.py): a store's tags, tag creation and deletion, and
    linking tags to items through the join table. */
module Tags {
  import opened Wrappers
  import opened Exceptions
  import opened Schemas
  import opened Models

  function TagNameInUseForStore(name: string): Failure {
    Api(Unprocessable("Tag name already in use for store", TagPayloadDetail(name)))
  }

  function TagInUse(tagId: int): Failure {
    Api(Unprocessable("Cannot delete tag. Tag is in use by items", TagDetail(tagId)))
  }

  function DifferentStores(itemId: int, tagId: int): Failure {
    Api(Unprocessable("Could not link item to tag since they belong to different stores", LinkDetail(itemId, tagId)))
  }

  /** GET /stores/<id>/tags: the store's tags in id order, or 404 for a missing store. */
  method GetStoreTags(s: Db, storeId: int) returns (r: Result<seq<Tag>, Failure>)
    ensures r.Ok? <==> storeId in s.stores
    ensures r.Err? ==> r.error == NotFound
    ensures r.Ok? ==> forall t :: t in r.value <==> t in s.tags.Values && t.storeId == storeId
    ensures r.Ok? && KeysMatch(s) ==> forall i, j :: 0 <= i < j < |r.value| ==> r.value[i].id < r.value[j].id
  {
    if storeId !in s.stores {
      return Err(NotFound);
    }
    var own := set k | k in s.tags && s.tags[k].storeId == storeId;
    var ids := SortedIds(own);
    var tags := seq(|ids|, i requires 0 <= i < |ids| => s.tags[ids[i]]);
    forall t | t in s.tags.Values && t.storeId == storeId ensures t in tags {
      var k := KeyOf(s.tags, t);
      assert k in own;
      var i :| 0 <= i < |ids| && ids[i] == k;
      assert tags[i] == t;
    }
    forall t | t in tags ensures t in s.tags.Values && t.storeId == storeId {
      var i :| 0 <= i < |tags| && tags[i] == t;
      assert ids[i] in own;
    }
    if KeysMatch(s) {
      forall i, j | 0 <= i < j < |tags| ensures tags[i].id < tags[j].id {
        assert tags[i].id == ids[i] && tags[j].id == ids[j];
      }
    }
    return Ok(tags);
  }

  /** POST /stores/<id>/tags: the new tag takes its store from the path. The store itself is
      not looked up. */
  function PostTag(s: Db, storeId: int, d: TagData): (r: Result<Done<Tag>, Failure>)
    requires ValidName(d.name)
    ensures r.Ok? <==> !exists k :: k in s.tags && s.tags[k].storeId == storeId && s.tags[k].name == d.name
    ensures r.Err? ==> r.error == TagNameInUseForStore(d.name)
    ensures r.Ok? ==>
      var t := r.value.body;
      && t.id !in s.tags && (forall k :: k in s.tags ==> k < t.id)
      && t.name == d.name && t.storeId == storeId
      && r.value.db == s.(tags := s.tags[t.id := t])
  {
    if exists k :: k in s.tags && s.tags[k].storeId == storeId && s.tags[k].name == d.name then
      Err(TagNameInUseForStore(d.name))
    else
      var t := Tag(NextId(s.tags.Keys), d.name, storeId);
      Ok(Done(s.(tags := s.tags[t.id := t]), t))
  }

  /** GET /tags/<id>. */
  function GetTag(s: Db, tagId: int): (r: Result<Tag, Failure>)
    ensures r.Ok? <==> tagId in s.tags
    ensures r.Ok? ==> r.value == s.tags[tagId]
    ensures r.Err? ==> r.error == NotFound
  {
    if tagId in s.tags then Ok(s.tags[tagId]) else Err(NotFound)
  }

  /** DELETE /tags/<id>: refused while any item is linked to the tag. */
  function DeleteTag(s: Db, tagId: int): (r: Result<Done<()>, Failure>)
    ensures r.Ok? <==> tagId in s.tags && ItemsOf(s, tagId) == {}
    ensures tagId !in s.tags ==> r == Err(NotFound)
    ensures tagId in s.tags && ItemsOf(s, tagId) != {} ==> r == Err(TagInUse(tagId))
    ensures r.Ok? ==> r.value.db == s.(tags := s.tags - {tagId})
  {
    if tagId !in s.tags then Err(NotFound)
    else if ItemsOf(s, tagId) != {} then Err(TagInUse(tagId))
    else Ok(Done(s.(tags := s.tags - {tagId}), ()))
  }

  /** A tag linked to an item cannot be deleted, and it stays. */
  lemma LinkedTagSurvivesDelete(s: Db, itemId: int, tagId: int)
    requires (itemId, tagId) in s.links && tagId in s.tags
    ensures DeleteTag(s, tagId) == Err(TagInUse(tagId))
  {
    TagsOfInvertsItemsOf(s, itemId, tagId);
  }

  /** POST /item/<item_id>/tags/<tag_id>: links an item and a tag of the same store. On a store
      mismatch the appended tag is never committed, so the state is unchanged. */
  function LinkTag(s: Db, itemId: int, tagId: int): (r: Result<Done<()>, Failure>)
    ensures r.Ok? <==> itemId in s.items && tagId in s.tags && s.items[itemId].storeId == s.tags[tagId].storeId
    ensures itemId !in s.items ==> r == Err(NotFound)
    ensures itemId in s.items && tagId !in s.tags ==> r == Err(NotFound)
    ensures itemId in s.items && tagId in s.tags && s.items[itemId].storeId != s.tags[tagId].storeId
      ==> r == Err(DifferentStores(itemId, tagId))
    ensures r.Ok? ==>
      && tagId in TagsOf(r.value.db, itemId) && itemId in ItemsOf(r.value.db, tagId)
      && r.value.db.links == s.links + {(itemId, tagId)}
      && r.value.db == s.(links := r.value.db.links)
  {
    if itemId !in s.items || tagId !in s.tags then Err(NotFound)
    else if s.items[itemId].storeId != s.tags[tagId].storeId then Err(DifferentStores(itemId, tagId))
    else
      var after := s.(links := s.links + {(itemId, tagId)});
      TagsOfInvertsItemsOf(after, itemId, tagId);
      Ok(Done(after, ()))
  }

  /** DELETE /item/<item_id>/tags/<tag_id>: removes the link. Removing a tag that is not in the
      item's list raises ValueError, which nothing catches. */
  function UnlinkTag(s: Db, itemId: int, tagId: int): (r: Result<Done<()>, Failure>)
    ensures r.Ok? <==> itemId in s.items && tagId in s.tags && (itemId, tagId) in s.links
    ensures itemId !in s.items || tagId !in s.tags ==> r == Err(NotFound)
    ensures itemId in s.items && tagId in s.tags && (itemId, tagId) !in s.links ==> r == Err(Unhandled(NotInList))
    ensures r.Ok? ==>
      && tagId !in TagsOf(r.value.db, itemId) && itemId !in ItemsOf(r.value.db, tagId)
      && r.value.db.links == s.links - {(itemId, tagId)}
      && r.value.db == s.(links := r.value.db.links)
  {
    if itemId !in s.items || tagId !in s.tags then Err(NotFound)
    else if (itemId, tagId) !in s.links then Err(Unhandled(NotInList))
    else
      var after := s.(links := s.links - {(itemId, tagId)});
      TagsOfInvertsItemsOf(after, itemId, tagId);
      Ok(Done(after, ()))
  }

  /** Unlinking undoes a link that was not there before. */
  lemma UnlinkUndoesLink(s: Db, itemId: int, tagId: int)
    requires (itemId, tagId) !in s.links
    requires LinkTag(s, itemId, tagId).Ok?
    ensures UnlinkTag(LinkTag(s, itemId, tagId).value.db, itemId, tagId).Ok?
    ensures UnlinkTag(LinkTag(s, itemId, tagId).value.db, itemId, tagId).value.db == s
  {
    var linked := LinkTag(s, itemId, tagId).value.db;
    assert linked.links - {(itemId, tagId)} == s.links;
  }

  /** What GET /tags/<id> reads back after each write: the created tag itself, 404 for a
      deleted one, and every other id as before. */
  lemma GetTagAfterWrites(s: Db, storeId: int, d: TagData, tagId: int)
    requires ValidName(d.name)
    ensures PostTag(s, storeId, d).Ok? ==>
      var t := PostTag(s, storeId, d).value;
      && GetTag(t.db, t.body.id) == Ok(t.body)
      && forall k :: k != t.body.id ==> GetTag(t.db, k) == GetTag(s, k)
    ensures DeleteTag(s, tagId).Ok? ==>
      var t := DeleteTag(s, tagId).value;
      && GetTag(t.db, tagId) == Err(NotFound)
      && forall k :: k != tagId ==> GetTag(t.db, k) == GetTag(s, k)
  {
  }
}

=== FILE: tokens.dfy ===
/** The JSON Web Tokens the user routes mint and consume.

    Signing, decoding and expiry belong to the JWT library and are not
    modelled: a token is the record of its claims. The token id (`jti`) is
    random and is therefore passed in by the caller, and so are the
    additional claims, which a claims loader outside this model computes
    from the identity (`Issuer`). */
module Tokens {
  import opened Wrappers
  import opened Exceptions

  /** The JSON values a claim may hold, as the JWT library decodes them. */
  datatype Json =
    | JNull
    | JBool(b: bool)
    | JInt(i: int)
    | JFloat(r: real)
    | JStr(s: string)
    | JArray(a: seq<Json>)
    | JObject(o: map<string, Json>)

  type Claims = map<string, Json>

  /** Python truthiness of a decoded JSON value. */
  predicate Truthy(j: Json) {
    match j
    case JNull => false
    case JBool(b) => b
    case JInt(i) => i != 0
    case JFloat(r) => r != 0.0
    case JStr(s) => |s| > 0
    case JArray(a) => |a| > 0
    case JObject(o) => |o| > 0
  }

  /** `jwt.get("is_admin")` is truthy: a missing claim reads as None, which is falsy. */
  predicate IsAdmin(claims: Claims) {
    "is_admin" in claims && Truthy(claims["is_admin"])
  }

  datatype TokenKind = Access | Refresh

  datatype Token = Token(jti: string, identity: int, kind: TokenKind, isFresh: bool, claims: Claims)

  /** The additional-claims callback consulted whenever a token is minted. */
  datatype Issuer = Issuer(claimsFor: int -> Claims)

  /** `create_access_token(identity, fresh)`. */
  function AccessToken(issuer: Issuer, jti: string, identity: int, isFresh: bool): (t: Token)
    ensures t.kind == Access && t.identity == identity && t.isFresh == isFresh && t.jti == jti
    ensures t.claims == issuer.claimsFor(identity)
  {
    Token(jti, identity, Access, isFresh, issuer.claimsFor(identity))
  }

  /** `create_refresh_token(identity)`: never fresh. */
  function RefreshToken(issuer: Issuer, jti: string, identity: int): (t: Token)
    ensures t.kind == Refresh && t.identity == identity && !t.isFresh && t.jti == jti
    ensures t.claims == issuer.claimsFor(identity)
  {
    Token(jti, identity, Refresh, false, issuer.claimsFor(identity))
  }

  /** The variants of the `jwt_required` decorator the routes use. */
  datatype Requirement =
    | AnyAccess     // jwt_required()
    | FreshAccess   // jwt_required(fresh=True)
    | RefreshOnly   // jwt_required(refresh=True)

  /** What `jwt_required` checks of a token that decoded: its kind, and freshness where asked.
      The revocation lookup is registered outside the modelled files and is not part of this gate. */
  predicate Meets(t: Token, req: Requirement) {
    match req
    case AnyAccess => t.kind == Access
    case FreshAccess => t.kind == Access && t.isFresh
    case RefreshOnly => t.kind == Refresh
  }

  /** The `jwt_required` gate: the token the handler will see, or why the request was refused. */
  function JwtRequired(presented: Option<Token>, req: Requirement): (r: Result<Token, Failure>)
    ensures r.Ok? <==> presented.Some? && Meets(presented.value, req)
    ensures r.Ok? ==> r.value == presented.value
    ensures presented.None? ==> r == Err(TokenRejected(NoToken))
    ensures presented.Some? && presented.value.kind == Refresh && req != RefreshOnly
      ==> r == Err(TokenRejected(OnlyAccessAllowed))
    ensures presented.Some? && presented.value.kind == Access && req == RefreshOnly
      ==> r == Err(TokenRejected(OnlyRefreshAllowed))
    ensures r.Err? && presented.Some? && presented.value.kind == Access && req != RefreshOnly
      ==> r == Err(TokenRejected(FreshRequired))
  {
    match presented
    case None => Err(TokenRejected(NoToken))
    case Some(t) =>
      if req.RefreshOnly? && t.kind != Refresh then Err(TokenRejected(OnlyRefreshAllowed))
      else if !req.RefreshOnly? && t.kind == Refresh then Err(TokenRejected(OnlyAccessAllowed))
      else if req.FreshAccess? && !t.isFresh then Err(TokenRejected(FreshRequired))
      else Ok(t)
  }

  /** A minted token passes exactly the gates of its own kind, and a fresh one passes them all. */
  lemma MintedTokensMeetTheirGates(issuer: Issuer, jti: string, identity: int)
    ensures JwtRequired(Some(AccessToken(issuer, jti, identity, true)), FreshAccess).Ok?
    ensures JwtRequired(Some(AccessToken(issuer, jti, identity, true)), AnyAccess).Ok?
    ensures JwtRequired(Some(AccessToken(issuer, jti, identity, false)), FreshAccess)
      == Err(TokenRejected(FreshRequired))
    ensures JwtRequired(Some(AccessToken(issuer, jti, identity, false)), AnyAccess).Ok?
    ensures JwtRequired(Some(RefreshToken(issuer, jti, identity)), RefreshOnly).Ok?
    ensures JwtRequired(Some(RefreshToken(issuer, jti, identity)), AnyAccess)
      == Err(TokenRejected(OnlyAccessAllowed))
    ensures JwtRequired(Some(RefreshToken(issuer, jti, identity)), FreshAccess)
      == Err(TokenRejected(OnlyAccessAllowed))
    ensures JwtRequired(Some(AccessToken(issuer, jti, identity, false)), RefreshOnly)
      == Err(TokenRejected(OnlyRefreshAllowed))
    ensures JwtRequired(Some(AccessToken(issuer, jti, identity, true)), RefreshOnly)
      == Err(TokenRejected(OnlyRefreshAllowed))
  {
  }
}

=== FILE: users.dfy ===
/** The user routes (resources/users.py): registration, login, logout, token refresh, and
    reading and deleting accounts. */
module Users {
  import opened Wrappers
  import opened Exceptions
  import opened Schemas
  import opened Models
  import opened Tokens

  /** The password hashing scheme, supplied by the caller: `hash` salts and digests a
      password, `verify` checks a password against a stored digest. */
  datatype Hasher = Hasher(hash: string -> string, verify: (string, string) -> bool)

  /** What UserSchema dumps of a user: the password field is load-only. */
  datatype UserView = UserView(id: int, username: string)

  function Dump(u: User): (v: UserView)
    ensures v.id == u.id && v.username == u.username
  {
    UserView(u.id, u.username)
  }

  /** The IntegrityError of the unique username column, as the handler reports it. Its detail
      echoes the whole request body, the plaintext password included. */
  function UsernameInUse(d: UserData): Failure {
    Api(Unprocessable("username already in use", UserPayloadDetail(d.username, d.password)))
  }

  const InvalidCredentials: Failure :=
    Api(ApiError(403, "Unauthorized", "Invalid username/password combination", NoDetail))

  /** POST /register: stores the hash of the password, never the password. */
  function Register(s: Db, h: Hasher, d: UserData): (r: Result<Done<UserView>, Failure>)
    requires ValidUser(d)
    ensures r.Ok? <==> !exists k :: k in s.users && s.users[k].username == d.username
    ensures r.Err? ==> r.error == UsernameInUse(d)
    ensures r.Ok? ==>
      var v := r.value.body;
      && v.id !in s.users && (forall k :: k in s.users ==> k < v.id)
      && v.username == d.username
      && r.value.db.users.Keys == s.users.Keys + {v.id}
      && r.value.db.users[v.id].password == h.hash(d.password)
      && r.value.db == s.(users := s.users[v.id := User(v.id, d.username, h.hash(d.password))])
  {
    if exists k :: k in s.users && s.users[k].username == d.username then
      Err(UsernameInUse(d))
    else
      var u := User(NextId(s.users.Keys), d.username, h.hash(d.password));
      Ok(Done(s.(users := s.users[u.id := u]), Dump(u)))
  }

  /** A failed registration reports the submitted password back in its detail. */
  lemma DuplicateRegistrationEchoesPassword(s: Db, h: Hasher, d: UserData, k: int)
    requires ValidUser(d) && k in s.users && s.users[k].username == d.username
    ensures Register(s, h, d).Err?
    ensures Register(s, h, d).error.error.detail.password == d.password
  {
  }

  datatype LoginTokens = LoginTokens(access: Token, refresh: Token)

  /** The ids of the users with a username. */
  function WithUsername(s: Db, username: string): (ids: set<int>)
    ensures forall k :: k in ids <==> k in s.users && s.users[k].username == username
  {
    set k | k in s.users && s.users[k].username == username
  }

  /** POST /login: the first user with the username (lowest id) must exist and the password
      must verify against its stored hash. The tokens carry that user's id; the access token is
      fresh. Token ids are chosen by the caller. */
  function Login(s: Db, h: Hasher, issuer: Issuer, d: UserData, accessJti: string, refreshJti: string)
    : (r: Result<LoginTokens, Failure>)
    requires ValidUser(d)
    ensures r.Err? ==> r.error == InvalidCredentials
    ensures r.Ok? ==>
      exists k :: k in s.users && s.users[k].username == d.username
        && h.verify(d.password, s.users[k].password)
        && r.value.access == AccessToken(issuer, accessJti, s.users[k].id, true)
        && r.value.refresh == RefreshToken(issuer, refreshJti, s.users[k].id)
    ensures (forall k :: k in s.users && s.users[k].username == d.username ==> !h.verify(d.password, s.users[k].password))
      ==> r.Err?
  {
    var ids := WithUsername(s, d.username);
    if ids == {} then Err(InvalidCredentials)
    else
      var user := s.users[Least(ids)];
      if h.verify(d.password, user.password) then
        Ok(LoginTokens(AccessToken(issuer, accessJti, user.id, true), RefreshToken(issuer, refreshJti, user.id)))
      else
        Err(InvalidCredentials)
  }

  /** With unique usernames, login succeeds exactly when a user with the username exists and
      the password verifies against that user's hash. */
  lemma LoginSucceedsIff(s: Db, h: Hasher, issuer: Issuer, d: UserData, accessJti: string, refreshJti: string)
    requires ValidUser(d) && UsernamesUnique(s)
    ensures Login(s, h, issuer, d, accessJti, refreshJti).Ok? <==>
      exists k :: k in s.users && s.users[k].username == d.username && h.verify(d.password, s.users[k].password)
  {
    if exists k :: k in s.users && s.users[k].username == d.username && h.verify(d.password, s.users[k].password) {
      var k :| k in s.users && s.users[k].username == d.username && h.verify(d.password, s.users[k].password);
      var ids := WithUsername(s, d.username);
      assert k in ids;
      assert Least(ids) == k;
    }
  }

  /** Registering and then logging in with the same credentials yields tokens for the new user,
      provided the hasher verifies a password against its own hash. */
  lemma RegisterThenLogin(s: Db, h: Hasher, issuer: Issuer, d: UserData, accessJti: string, refreshJti: string)
    requires ValidUser(d) && Register(s, h, d).Ok?
    requires h.verify(d.password, h.hash(d.password))
    ensures
      var t := Register(s, h, d).value;
      && Login(t.db, h, issuer, d, accessJti, refreshJti).Ok?
      && Login(t.db, h, issuer, d, accessJti, refreshJti).value.access.identity == t.body.id
      && Login(t.db, h, issuer, d, accessJti, refreshJti).value.refresh.identity == t.body.id
  {
    var t := Register(s, h, d).value;
    var ids := WithUsername(t.db, d.username);
    assert ids == {t.body.id};
  }

  /** POST /logout: revokes the presented access token and changes nothing else. */
  function Logout(s: Db, presented: Option<Token>): (r: Result<Done<()>, Failure>)
    ensures r.Ok? <==> presented.Some? && presented.value.kind == Access
    ensures r.Err? ==> r.error.TokenRejected?
    ensures r.Ok? ==> r.value.db == s.(blocklist := s.blocklist + {presented.value.jti})
  {
    var t :- JwtRequired(presented, AnyAccess);
    Ok(Done(s.(blocklist := s.blocklist + {t.jti}), ()))
  }

  /** POST /refresh: a non-fresh access token for the same identity; the refresh token's jti
      is added to the revocation set. */
  function TokenRefresh(s: Db, issuer: Issuer, presented: Option<Token>, newJti: string): (r: Result<Done<Token>, Failure>)
    ensures r.Ok? <==> presented.Some? && presented.value.kind == Refresh
    ensures r.Err? ==> r.error.TokenRejected?
    ensures r.Ok? ==>
      var t := r.value.body;
      && t.kind == Access && !t.isFresh && t.identity == presented.value.identity && t.jti == newJti
      && t.claims == issuer.claimsFor(presented.value.identity)
      && r.value.db == s.(blocklist := s.blocklist + {presented.value.jti})
  {
    var t :- JwtRequired(presented, RefreshOnly);
    var access := AccessToken(issuer, newJti, t.identity, false);
    Ok(Done(s.(blocklist := s.blocklist + {t.jti}), access))
  }

  /** DELETE /users: needs a fresh access token, and deletes the user the token names. */
  function DeleteUser(s: Db, presented: Option<Token>): (r: Result<Done<()>, Failure>)
    ensures r.Ok? <==>
      presented.Some? && Meets(presented.value, FreshAccess) && presented.value.identity in s.users
    ensures (presented.None? || !Meets(presented.value, FreshAccess)) ==> r.Err? && r.error.TokenRejected?
    ensures presented.Some? && Meets(presented.value, FreshAccess) && presented.value.identity !in s.users
      ==> r == Err(NotFound)
    ensures r.Ok? ==> r.value.db == s.(users := s.users - {presented.value.identity})
  {
    var t :- JwtRequired(presented, FreshAccess);
    if t.identity !in s.users then Err(NotFound)
    else Ok(Done(s.(users := s.users - {t.identity}), ()))
  }

  /** A token obtained by refreshing can never delete an account. */
  lemma RefreshedTokenCannotDeleteUser(s: Db, issuer: Issuer, presented: Option<Token>, newJti: string, t: Db)
    requires TokenRefresh(s, issuer, presented, newJti).Ok?
    ensures DeleteUser(t, Some(TokenRefresh(s, issuer, presented, newJti).value.body)) == Err(TokenRejected(FreshRequired))
  {
  }

  /** The refresh token handed out at login is accepted, and its first use adds its jti to the
      revocation set. Refusing a second use is the job of the revocation lookup, which is not
      part of this model. */
  lemma LoginRefreshRevokesItself(s: Db, h: Hasher, issuer: Issuer, d: UserData, accessJti: string, refreshJti: string, newJti: string)
    requires ValidUser(d) && Login(s, h, issuer, d, accessJti, refreshJti).Ok?
    ensures
      var refresh := Login(s, h, issuer, d, accessJti, refreshJti).value.refresh;
      && TokenRefresh(s, issuer, Some(refresh), newJti).Ok?
      && refreshJti in TokenRefresh(s, issuer, Some(refresh), newJti).value.db.blocklist
  {
  }

  /** GET /users/<id>. */
  function GetUser(s: Db, userId: int): (r: Result<UserView, Failure>)
    ensures r.Ok? <==> userId in s.users
    ensures r.Ok? ==> r.value.id == s.users[userId].id && r.value.username == s.users[userId].username
    ensures r.Err? ==> r.error == NotFound
  {
    if userId in s.users then Ok(Dump(s.users[userId])) else Err(NotFound)
  }

  /** What the account routes read back after each write: registration makes exactly the new
      account readable, without its password, and deletion makes the token's account
      unreadable; every other account reads as before. */
  lemma GetUserAfterWrites(s: Db, h: Hasher, d: UserData, presented: Option<Token>)
    requires ValidUser(d)
    ensures Register(s, h, d).Ok? ==>
      var t := Register(s, h, d).value;
      && GetUser(t.db, t.body.id) == Ok(UserView(t.body.id, d.username))
      && forall k :: k != t.body.id ==> GetUser(t.db, k) == GetUser(s, k)
    ensures DeleteUser(s, presented).Ok? ==>
      var t := DeleteUser(s, presented).value;
      && GetUser(t.db, presented.value.identity) == Err(NotFound)
      && forall k :: k != presented.value.identity ==> GetUser(t.db, k) == GetUser(s, k)
  {
  }
}

=== FILE: wrappers.dfy ===
/** Option and Result: the failure-compatible carriers every handler returns. */
module Wrappers {

  datatype Option<+T> = None | Some(value: T)

  /** A handler either produces a value or fails with an error; usable with `:-`. */
  datatype Result<+T, +E> = Ok(value: T) | Err(error: E) {

    predicate IsFailure() {
      Err?
    }

    function PropagateFailure<U>(): Result<U, E>
      requires Err?
    {
      Err(error)
    }

    function Extract(): T
      requires Ok?
    {
      value
    }
  }
}
